=== FILE: README.md ===
# Task listing and boost update of the Starknet Quest API, in Dafny

This project models two handlers of the Starknet Quest back end and proves properties of them.

- **`GET /get_tasks`** lists a user's tasks for one quest. It runs a MongoDB aggregation over the `tasks` collection:
  1. `$match` keeps the tasks of the requested quest.
  2. A `$lookup` attaches the caller's records from `completed_tasks`.
  3. A second `$lookup` attaches the quest documents with that `quest_id`.
  4. `$unwind` makes one row per quest found.
  5. `$match` keeps rows whose quest has `disabled: false`.
  6. `$addFields` derives a `sort_order` priority from `verify_endpoint_type`.
  7. Two `$sort` stages run, first on `sort_order` and then on `overwrite_order`.
  8. `$project` produces the public `UserTask` shape, with `completed` meaning "at least one completion record".

  The handler then drains the cursor. It skips read errors and documents that do not deserialise. It returns the list, or the error "No tasks found for this quest_id" when the list is empty, or "Error querying tasks" when the aggregation fails.
- **`POST /admin/quest_boost/update_boost`** finds the boost whose `quests` array contains the request's `quest_id`. If there is none it answers "Error creating boosts". Otherwise it builds a `$set` document from the request fields that are present and applies it to that boost.

Modules:

- `Wrappers` (`wrappers.dfy`): `Option` and `Result`.
- `StableSort` (`stable_sort.dfy`):
  - the BSON order on a sorted-on field that is absent or numeric (absent first);
  - a stable insertion sort on that order;
  - the lemma about two successive stable sorts.
- `TaskStore` (`task_store.dfy`): the three collections as in-memory sequences of records.
- `TaskPipeline` (`task_pipeline.dfy`): one pure function per aggregation stage, plus the lemmas about the pipeline.
- `TaskResponse` (`task_response.dfy`):
  - `UserTask` and its deserialisation;
  - draining the cursor;
  - the three-way response;
  - the end-to-end `GetTasks`.
- `BoostUpdate` (`boost_update.dfy`):
  - the boost record, the request and the `$set` document;
  - the patch, the lookup and the update of the store.

Modelling decisions:

- **Sort stability is an assumption of the model.** MongoDB does not promise that `$sort` is stable. Each `$sort` is modelled as a stable sort. Two results rely on that assumption: the tie rule of `TaskPipeline.OrderedSorting` and `TaskPipeline.NoOverridesPriorityOrder`.
- **Order of the output.** The second sort (on `overwrite_order`) runs last, so it determines the order of the output. The output is not claimed to be ordered by endpoint-type priority overall. Among tasks with equal `overwrite_order`, the `sort_order` order survives. An absent or null `overwrite_order` sorts before every number.
- **Empty listing.** An empty task list is reported as the "No tasks found for this quest_id" error (get_tasks.rs lines 128-129). `TaskResponse.Respond` never returns an OK empty list.
- **Quest flag.** `disabled` may be absent from a quest document. The filter `{"quest.disabled": false}` keeps only quests whose flag is present and false.
- **Duplicate quest ids.** `$unwind` emits one row per quest document carrying the task's `quest_id`. A task whose quest id appears on two enabled quests is therefore listed twice.
- **Boost lookup.** The filter `{"quests": quest_id}` matches a boost whose `quests` array contains the id. `find_one` and `find_one_and_update` both take the first match in natural order, modelled as sequence order.

## Model

| member | source | states |
|---|---|---|
| StableSort.KeyLeTotalOrder | src/endpoints/get_tasks.rs:90-91 | The order the `$sort` stages use (absent before numbers, numbers by value) is a total order. |
| StableSort.SortBy | src/endpoints/get_tasks.rs:90-91 | One `$sort` returns a permutation of its input in ascending key order. Within each group of equal keys, elements keep their input order (stability). |
| StableSort.TwoStableSorts | src/endpoints/get_tasks.rs:90-91 | After a sort on `first` followed by a sort on `second`, the result is a permutation ordered on `second`. Elements with equal `second` keys are ordered on `first`. |
| TaskPipeline.MatchQuest | src/endpoints/get_tasks.rs:45 | A catalog task is kept exactly when its `quest_id` is the requested one. |
| TaskPipeline.CompletionsFor | src/endpoints/get_tasks.rs:50-57 | The inner pipeline of the completion lookup picks exactly the records whose `task_id` is the task's `id` and whose `address` is the caller's. |
| TaskPipeline.LookupCompleted | src/endpoints/get_tasks.rs:46-60 | Left join: every task stays, in place, carrying exactly its matching completion records. |
| TaskPipeline.QuestsWithId | src/endpoints/get_tasks.rs:62-67 | The quest lookup picks exactly the quests whose `id` equals the task's `quest_id`. |
| TaskPipeline.LookupQuest | src/endpoints/get_tasks.rs:61-68 | Every record stays, in place, with its completions untouched and its array of matching quests attached. |
| TaskPipeline.Unwind | src/endpoints/get_tasks.rs:69 | A row exists exactly for each (record, quest in its array) pair. A record with an empty quest array yields nothing. |
| TaskPipeline.MatchEnabled | src/endpoints/get_tasks.rs:70 | A row is kept exactly when its quest's `disabled` flag is present and false. |
| TaskPipeline.SortOrder | src/endpoints/get_tasks.rs:71-89 | The priority is total and lies in {1, 2, 3}. It is 1 exactly for "quiz", 2 exactly for "default", and 3 for any other or absent type. |
| TaskPipeline.AddSortOrder | src/endpoints/get_tasks.rs:71-89 | Each row keeps its place and gains the priority of its endpoint type. |
| TaskPipeline.Project | src/endpoints/get_tasks.rs:92-112 | The projection copies the task's `id`, `quest_id`, `name`, `href`, `cta`, `verify_endpoint`, `verify_redirect`, `verify_endpoint_type`, `desc`, `quiz_name`, `calls`, `contracts`, `api_url` and `regex`; each is absent where the task lacks it. `completed` holds exactly when the row has at least one completion record. |
| TaskPipeline.ProjectAll | src/endpoints/get_tasks.rs:92-112 | The projection maps the stream element by element and keeps its order and length. |
| TaskPipeline.JoinsExactlyVisible | src/endpoints/get_tasks.rs:44-70 | Stages 1 to 5 yield exactly the rows that pair (a) a catalog task of the quest, (b) an enabled quest of that id, and (c) exactly the caller's completion records for that task. |
| TaskPipeline.OrderedRows | src/endpoints/get_tasks.rs:71-91 | Every row of the sorted stream came out of the joins, carrying its endpoint-type priority. |
| TaskPipeline.OrderedOnlyVisible | src/endpoints/get_tasks.rs:45-70 | Every row of the final stream pairs a task of the quest with an enabled quest of the task's `quest_id`. |
| TaskPipeline.OrphanTaskNeverShown | src/endpoints/get_tasks.rs:61-69 | A task with no quest of its `quest_id` never appears in the output. |
| TaskPipeline.DisabledTaskNeverShown | src/endpoints/get_tasks.rs:70 | A task none of whose quests has `disabled == false` never appears, whatever its completion state. |
| TaskPipeline.EnabledTaskShown | src/endpoints/get_tasks.rs:45-70 | Conversely, a catalog task of the quest with an enabled quest does appear. |
| TaskPipeline.SortStages | src/endpoints/get_tasks.rs:90-91 | The two `$sort` stages together return a permutation of their input, of the same length, ordered on `overwrite_order` (absent first). |
| TaskPipeline.OrderedSorting | src/endpoints/get_tasks.rs:90-91 | The final order is a permutation of the prioritised rows, non-decreasing in `overwrite_order` (absent first). Among equal `overwrite_order`, it is non-decreasing in `sort_order`, assuming stable sorts. |
| TaskPipeline.NoOverridesPriorityOrder | src/endpoints/get_tasks.rs:71-91 | When no task sets `overwrite_order`, the output is in endpoint-type priority order (stable sorts assumed). |
| TaskPipeline.Aggregate | src/endpoints/get_tasks.rs:44-112 | The pipeline emits as many documents as there are joined (task, enabled quest) rows. Every document is the projection of a joined row with its priority. Every joined row's projection is emitted. |
| TaskPipeline.AggregateFields | src/endpoints/get_tasks.rs:44-112 | Every emitted document has the requested `quest_id`. Its `completed` is true exactly when some completion record has its `id` and the caller's address. |
| TaskResponse.Decode | src/endpoints/get_tasks.rs:14-31 | Deserialising into `UserTask` succeeds exactly when the required fields are present and `id`, `quest_id` and `quiz_name` fit u32, u32 and i64. A decoded task serialises back to the same document. |
| TaskResponse.Encode | src/endpoints/get_tasks.rs:14-31 | Every `UserTask` serialises to a document that deserialises, with the same `id`, `quest_id` and `completed`. `None` stands for an absent or a null field. |
| TaskResponse.DecodeEncode | src/endpoints/get_tasks.rs:14-31 | Every `UserTask` deserialises from its own serialisation. |
| TaskResponse.Collect | src/endpoints/get_tasks.rs:117-127 | The collected tasks are exactly the decodings of the stream's documents that decode. Read errors and undecodable documents contribute nothing. |
| TaskResponse.CollectAppend | src/endpoints/get_tasks.rs:118-126 | Draining the cursor works item by item, so the collected list keeps stream order. |
| TaskResponse.CollectSkipsBadItem | src/endpoints/get_tasks.rs:118-126 | A bad item anywhere in the stream is dropped without aborting or disturbing the items around it. |
| TaskResponse.Respond | src/endpoints/get_tasks.rs:115-135 | The three outcomes are distinct. A failed aggregation gives "Error querying tasks". An empty list gives "No tasks found for this quest_id". Otherwise the answer is OK with the non-empty list. |
| TaskResponse.CollectDelivered | src/endpoints/get_tasks.rs:118-129 | Over an error-free cursor, the returned tasks are exactly the decodable documents. The list is empty exactly when none decodes. |
| TaskResponse.GetTasks | src/endpoints/get_tasks.rs:115-135 | The handler gives "Error querying tasks" exactly when the store cannot be read. An OK answer lists at least one task and no more tasks than there are joined rows. |
| TaskResponse.GetTasksOutcome | src/endpoints/get_tasks.rs:44-135 | End to end: a store failure is the query error. Each returned task belongs to the quest, and its `completed` flag is exact. The "no tasks" error comes exactly when nothing decodes. |
| TaskResponse.ListableTaskReturned | src/endpoints/get_tasks.rs:44-131 | Conversely, take a catalog task of the quest that has an enabled quest of that id, has its required fields, and whose numbers fit. The answer is OK, and it lists a task with that task's fields and its exact completion flag. |
| TaskResponse.ReturnedTaskListable | src/endpoints/get_tasks.rs:44-131 | Every returned task shows a listable catalog task: all its public fields are that task's. Its `completed` flag holds exactly when a completion record names that task and the caller. |
| TaskResponse.NoTasksExactlyWhenNoneListable | src/endpoints/get_tasks.rs:115-131 | Stated over the store: "No tasks found for this quest_id" comes exactly when the store holds no listable task for the quest. |
| TaskResponse.ReturnedDespiteReadErrors | src/endpoints/get_tasks.rs:116-131 | Whichever cursor reads fail, every task still returned shows a listable catalog task field for field, with that task's exact completion flag. |
| TaskResponse.AllReadsFailing | src/endpoints/get_tasks.rs:116-129 | When every cursor read fails, the handler answers "No tasks found for this quest_id", whatever documents the pipeline emitted. |
| TaskResponse.NothingUsableCollectsNothing | src/endpoints/get_tasks.rs:116-126 | A stream in which no item is a decodable document collects no task. |
| BoostUpdate.ApplySet | src/endpoints/admin/quest_boost/update_boost.rs:69-76 | `$set` gives every field named in the document the document's value. Every other field keeps its value. |
| BoostUpdate.InsertIfSome | src/endpoints/admin/quest_boost/update_boost.rs:47-67 | One `if let Some(..) { update_doc.insert(..) }` step: the key is added with the value exactly when one is supplied. Every other entry is kept. |
| BoostUpdate.Requested | src/endpoints/admin/quest_boost/update_boost.rs:15-25 | A request can supply only a value of the field's own type, and never one for `id` or `quests`. |
| BoostUpdate.InsertSupplied | src/endpoints/admin/quest_boost/update_boost.rs:45-67 | After the handler considers a list of fields in turn, the document holds exactly the supplied fields among them, with the supplied values. |
| BoostUpdate.SetDoc | src/endpoints/admin/quest_boost/update_boost.rs:45-67 | The update document holds exactly the supplied fields, each with its supplied value and of its field's type. |
| BoostUpdate.ApplyPatch | src/endpoints/admin/quest_boost/update_boost.rs:45-76 | Each supplied field takes the supplied value. Every field not supplied keeps its value. `id` and `quests` are never written. |
| BoostUpdate.ApplyPatchFields | src/endpoints/admin/quest_boost/update_boost.rs:47-67 | Each of `amount`, `token`, `expiry`, `num_of_winners`, `token_decimals`, `name`, `img_url` becomes `v` when the request has `Some(v)`, and is unchanged otherwise. |
| BoostUpdate.ApplyPatchIdempotent | src/endpoints/admin/quest_boost/update_boost.rs:70-76 | Applying the same patch twice gives the boost that applying it once gives. |
| BoostUpdate.ApplyPatchIgnoresRemoveBoost | src/endpoints/admin/quest_boost/update_boost.rs:45-67 | `remove_boost` has no effect on the patch. |
| BoostUpdate.FindFrom | src/endpoints/admin/quest_boost/update_boost.rs:35-38 | The search returns the first position from `start` on whose boost's `quests` contains the quest id, or reports that there is none. |
| BoostUpdate.FindBoost | src/endpoints/admin/quest_boost/update_boost.rs:35-38 | `find_one` returns the first boost attached to the quest. It finds nothing exactly when no stored boost is attached. |
| BoostUpdate.Update | src/endpoints/admin/quest_boost/update_boost.rs:35-76 | The request fails with "Error creating boosts" exactly when no boost has the quest. Otherwise only the first matching boost is patched and every other boost is unchanged. |
| BoostUpdate.StoreAfter | src/endpoints/admin/quest_boost/update_boost.rs:35-43 | When no boost has the quest, the store is left unchanged. |
| BoostUpdate.UpdateKeepsSelection | src/endpoints/admin/quest_boost/update_boost.rs:35-38 | After an update, the filter `{"quests": quest_id}` selects the same boost as before, for every quest id, because the patch never writes `quests`. |
| BoostUpdate.UpdateIdempotent | src/endpoints/admin/quest_boost/update_boost.rs:70-76 | Sending the same update twice leaves the store as sending it once. |
| BoostUpdate.UpdateIgnoresRemoveBoost | src/endpoints/admin/quest_boost/update_boost.rs:23-24 | `remove_boost` is accepted but has no effect on the outcome. |

## Left out

- HTTP routing, the route macros, `State`/`Query`/`Json` extraction, status codes and response bodies: transport glue. Only the OK-versus-error outcome and the error message are modelled.
- MongoDB I/O and async cursors are not modelled. The collections are in-memory sequences. A failed aggregation is `Failure` in `TaskResponse.GetTasks` (or `QueryFailed` in `Respond`). A failed cursor read is an `ItemError` item in `TaskResponse.Collect`, `TaskResponse.Respond` and `TaskResponse.ReturnedDespiteReadErrors`. `TaskResponse.GetTasks` reads every document without error.
- BoostUpdate.Update: both boost calls (`find_one`, update_boost.rs line 38, then `find_one_and_update`, lines 74-76, with the same filter) are taken to see the same store. Concurrent writes between them are not modelled. Such a write could make the handler patch a different first match. It could also make the handler answer "updated successfully" when the second call matched nothing and wrote nothing.
- The failure of `find_one_and_update` ("error updating boost") is not modelled: it is store I/O, and `BoostUpdate.Update` takes the write to succeed.
- The panic from `unwrap` on a failed `find_one` is not modelled: it is a runtime crash, not logic.
- `FieldElement` parsing of the address and its `to_string` canonical form are not modelled. The address is taken as an already-normalised string compared by equality.
- Serde/BSON deserialisation is modelled only as field presence and integer ranges. Values of the wrong BSON type are not modelled.
- The full BSON cross-type comparison order is not modelled. Sorted-on fields are either absent/null or numbers.
- MongoDB's `$sort` is not guaranteed to be stable. The model assumes stability; it does not prove it.
- A task document without an `id` is not modelled: `id` is taken to be present. In the source such a document still passes the pipeline. Then `from_document::<UserTask>` rejects it, because `id` is required, and the handler skips it.
- The boost record type lives in the repository's models file, which is not part of this model. `Boost` holds the seven patchable fields plus `id` and `quests`, which stand for the fields the update never writes.
- Rust's `i32`/`i64` bounds on request fields are checked when the request is deserialised. The model uses unbounded integers for them.
- An empty `$set` document, when the request supplies no field, is modelled as a no-op. MongoDB servers before 5.0 reject it, and the handler then answers "error updating boost".
- TaskResponse.GetTasksOutcome: "no tasks exactly when nothing decodes" assumes every cursor read succeeds. On a read error the source skips the item (`_ => continue`, get_tasks.rs line 125) and loses its document; `TaskResponse.AllReadsFailing` shows the "No tasks found" answer this can give.
- TaskResponse.ListableTaskReturned: assumes every cursor read succeeds. On a read error the source drops the listable task's document, and it can answer with a shorter list or "No tasks found".
- TaskResponse.NoTasksExactlyWhenNoneListable: assumes every cursor read succeeds. With read errors the source can answer "No tasks found" while a listable task is stored. Only the other direction, `TaskResponse.ReturnedDespiteReadErrors`, holds for every read outcome.
- TaskPipeline.MatchQuest: states which tasks are kept, not that catalog order is kept (the body keeps it).
- TaskPipeline.MatchEnabled: states which rows are kept, not that their order is kept (the body keeps it).
- TaskPipeline.Unwind: states which rows exist, not their multiplicity or order (the body emits them in input order).

=== FILE: boost_update.dfy ===
/**
 * The admin boost update: find the boost attached to a quest, then apply a
 * `$set` holding exactly the fields the request supplies.
 */
module BoostUpdate {
  import opened Wrappers

  /**
   * A stored boost. `id` and `quests` stand for the fields of the stored
   * record that the update never writes; the other seven are patchable.
   */
  datatype Boost = Boost(
    id: int,
    amount: int,
    token: string,
    expiry: int,
    numOfWinners: int,
    tokenDecimals: int,
    name: string,
    imgUrl: string,
    quests: seq<int>
  )

  /** The request body: every patchable field is optional; `questId` selects the boost. */
  datatype UpdateBoostQuery = UpdateBoostQuery(
    amount: Option<int>,
    token: Option<string>,
    numOfWinners: Option<int>,
    tokenDecimals: Option<int>,
    expiry: Option<int>,
    name: Option<string>,
    imgUrl: Option<string>,
    removeBoost: Option<bool>,
    questId: int
  )

  /** The field names of a boost document. */
  datatype Field = Id | Amount | Token | Expiry | NumOfWinners | TokenDecimals | Name | ImgUrl | Quests

  /** A field value as stored in a document. */
  datatype Value = Int(i: int) | Str(s: string) | IntList(l: seq<int>)

  /** Reads one field of a boost as a document value. */
  function Get(b: Boost, f: Field): Value {
    match f
    case Id => Int(b.id)
    case Amount => Int(b.amount)
    case Token => Str(b.token)
    case Expiry => Int(b.expiry)
    case NumOfWinners => Int(b.numOfWinners)
    case TokenDecimals => Int(b.tokenDecimals)
    case Name => Str(b.name)
    case ImgUrl => Str(b.imgUrl)
    case Quests => IntList(b.quests)
  }

  /** Two boosts with the same value in every field are the same boost. */
  lemma BoostExtensionality(a: Boost, b: Boost)
    requires forall f :: Get(a, f) == Get(b, f)
    ensures a == b
  {
    assert Get(a, Id) == Get(b, Id) && Get(a, Amount) == Get(b, Amount);
    assert Get(a, Token) == Get(b, Token) && Get(a, Expiry) == Get(b, Expiry);
    assert Get(a, NumOfWinners) == Get(b, NumOfWinners) && Get(a, TokenDecimals) == Get(b, TokenDecimals);
    assert Get(a, Name) == Get(b, Name) && Get(a, ImgUrl) == Get(b, ImgUrl);
    assert Get(a, Quests) == Get(b, Quests);
  }

  /** `v` has the type the boost record gives field `f`. */
  predicate Fits(f: Field, v: Value) {
    match f
    case Token | Name | ImgUrl => v.Str?
    case Quests => v.IntList?
    case _ => v.Int?
  }

  /** An update document whose every value fits its field. */
  predicate WellTyped(doc: map<Field, Value>) {
    forall f :: f in doc ==> Fits(f, doc[f])
  }

  /** The value field `f` holds after `$set` of `doc` on `b`. */
  function SetValue(b: Boost, doc: map<Field, Value>, f: Field): Value {
    if f in doc then doc[f] else Get(b, f)
  }

  /**
   * `$set`: every field named in the document takes the document's value and
   * every other field keeps its value.
   */
  function ApplySet(b: Boost, doc: map<Field, Value>): (r: Boost)
    requires WellTyped(doc)
    ensures forall f :: Get(r, f) == if f in doc then doc[f] else Get(b, f)
  {
    Boost(
      SetValue(b, doc, Id).i,
      SetValue(b, doc, Amount).i,
      SetValue(b, doc, Token).s,
      SetValue(b, doc, Expiry).i,
      SetValue(b, doc, NumOfWinners).i,
      SetValue(b, doc, TokenDecimals).i,
      SetValue(b, doc, Name).s,
      SetValue(b, doc, ImgUrl).s,
      SetValue(b, doc, Quests).l
    )
  }

  /**
   * The value the request supplies for a field, if any. Only the seven
   * patchable fields can be supplied; `remove_boost` and `quest_id` name no
   * boost field.
   */
  function Requested(q: UpdateBoostQuery, f: Field): (r: Option<Value>)
    ensures r.Some? ==> Fits(f, r.value)
    ensures f == Id || f == Quests ==> r.None?
  {
    match f
    case Amount => if q.amount.Some? then Some(Int(q.amount.value)) else None
    case Token => if q.token.Some? then Some(Str(q.token.value)) else None
    case Expiry => if q.expiry.Some? then Some(Int(q.expiry.value)) else None
    case NumOfWinners => if q.numOfWinners.Some? then Some(Int(q.numOfWinners.value)) else None
    case TokenDecimals => if q.tokenDecimals.Some? then Some(Int(q.tokenDecimals.value)) else None
    case Name => if q.name.Some? then Some(Str(q.name.value)) else None
    case ImgUrl => if q.imgUrl.Some? then Some(Str(q.imgUrl.value)) else None
    case Id | Quests => None
  }

  /** Inserts `key` into the update document when the request supplies a value. */
  function InsertIfSome(doc: map<Field, Value>, key: Field, v: Option<Value>): (r: map<Field, Value>)
    ensures forall f :: f in r <==> f in doc || (f == key && v.Some?)
    ensures forall f :: f in r ==> r[f] == if f == key && v.Some? then v.value else doc[f]
  {
    if v.Some? then doc[key := v.value] else doc
  }

  /** The order in which the handler inserts supplied fields into the update document. */
  const InsertionOrder: seq<Field> := [Amount, Token, Expiry, NumOfWinners, TokenDecimals, Name, ImgUrl]

  /**
   * The update document after the handler has considered `fields` in turn,
   * inserting each one the request supplies.
   */
  function InsertSupplied(q: UpdateBoostQuery, fields: seq<Field>): (doc: map<Field, Value>)
    ensures forall f :: f in doc <==> f in fields && Requested(q, f).Some?
    ensures forall f :: f in doc ==> doc[f] == Requested(q, f).value
  {
    if |fields| == 0 then map[]
    else
      var last := fields[|fields| - 1];
      assert forall f :: f in fields <==> f in fields[..|fields| - 1] || f == last;
      InsertIfSome(InsertSupplied(q, fields[..|fields| - 1]), last, Requested(q, last))
  }

  /**
   * The `$set` document: exactly the supplied fields with their supplied
   * values, each of the field's type.
   */
  function SetDoc(q: UpdateBoostQuery): (doc: map<Field, Value>)
    ensures WellTyped(doc)
    ensures forall f :: f in doc <==> Requested(q, f).Some?
    ensures forall f :: f in doc ==> doc[f] == Requested(q, f).value
  {
    assert forall f :: Requested(q, f).Some? ==> f in InsertionOrder;
    InsertSupplied(q, InsertionOrder)
  }

  /**
   * The patch applied to the matched boost: each supplied field takes the
   * supplied value, every field not supplied keeps its value, and `id`,
   * `quests` are never written.
   */
  function ApplyPatch(b: Boost, q: UpdateBoostQuery): (r: Boost)
    ensures forall f :: Requested(q, f).Some? ==> Get(r, f) == Requested(q, f).value
    ensures forall f :: Requested(q, f).None? ==> Get(r, f) == Get(b, f)
    ensures r.id == b.id && r.quests == b.quests
  {
    var r := ApplySet(b, SetDoc(q));
    assert Get(r, Id) == Get(b, Id) && Get(r, Quests) == Get(b, Quests);
    r
  }

  /** The same patch on concrete fields: a supplied value is stored, an absent one leaves the field. */
  lemma ApplyPatchFields(b: Boost, q: UpdateBoostQuery)
    ensures ApplyPatch(b, q).amount == (if q.amount.Some? then q.amount.value else b.amount)
    ensures ApplyPatch(b, q).token == (if q.token.Some? then q.token.value else b.token)
    ensures ApplyPatch(b, q).expiry == (if q.expiry.Some? then q.expiry.value else b.expiry)
    ensures ApplyPatch(b, q).numOfWinners == (if q.numOfWinners.Some? then q.numOfWinners.value else b.numOfWinners)
    ensures ApplyPatch(b, q).tokenDecimals == (if q.tokenDecimals.Some? then q.tokenDecimals.value else b.tokenDecimals)
    ensures ApplyPatch(b, q).name == (if q.name.Some? then q.name.value else b.name)
    ensures ApplyPatch(b, q).imgUrl == (if q.imgUrl.Some? then q.imgUrl.value else b.imgUrl)
  {
    var r := ApplyPatch(b, q);
    assert Get(r, Amount).i == r.amount && Get(r, Token).s == r.token && Get(r, Expiry).i == r.expiry;
    assert Get(r, NumOfWinners).i == r.numOfWinners && Get(r, TokenDecimals).i == r.tokenDecimals;
    assert Get(r, Name).s == r.name && Get(r, ImgUrl).s == r.imgUrl;
  }

  /** Setting the same fields twice gives what setting them once gives. */
  lemma ApplyPatchIdempotent(b: Boost, q: UpdateBoostQuery)
    ensures ApplyPatch(ApplyPatch(b, q), q) == ApplyPatch(b, q)
  {
    var once := ApplyPatch(b, q);
    var twice := ApplyPatch(once, q);
    forall f
      ensures Get(twice, f) == Get(once, f)
    {
    }
    BoostExtensionality(twice, once);
  }

  /** `remove_boost` has no effect on the patch. */
  lemma ApplyPatchIgnoresRemoveBoost(b: Boost, q: UpdateBoostQuery, removeBoost: Option<bool>)
    ensures ApplyPatch(b, q.(removeBoost := removeBoost)) == ApplyPatch(b, q)
  {
    var q' := q.(removeBoost := removeBoost);
    assert forall f :: Requested(q', f) == Requested(q, f);
    forall f
      ensures Get(ApplyPatch(b, q'), f) == Get(ApplyPatch(b, q), f)
    {
    }
    BoostExtensionality(ApplyPatch(b, q'), ApplyPatch(b, q));
  }

  /**
   * The filter `{"quests": quest_id}` against a stored boost: its `quests`
   * array contains the id.
   */
  predicate Matches(b: Boost, questId: int) {
    questId in b.quests
  }

  /** The position of the first boost, from `start` on, matching the quest. */
  function FindFrom(store: seq<Boost>, questId: int, start: nat): (r: Option<nat>)
    requires start <= |store|
    ensures r.Some? ==> start <= r.value < |store| && Matches(store[r.value], questId)
    ensures r.Some? ==> forall j :: start <= j < r.value ==> !Matches(store[j], questId)
    ensures r.None? ==> forall j :: start <= j < |store| ==> !Matches(store[j], questId)
    decreases |store| - start
  {
    if start == |store| then None
    else if Matches(store[start], questId) then Some(start)
    else FindFrom(store, questId, start + 1)
  }

  /** `find_one`: the first stored boost attached to the quest, if any. */
  function FindBoost(store: seq<Boost>, questId: int): (r: Option<nat>)
    ensures r.Some? ==> r.value < |store| && Matches(store[r.value], questId)
    ensures r.Some? ==> forall j :: 0 <= j < r.value ==> !Matches(store[j], questId)
    ensures r.None? <==> forall b :: b in store ==> !Matches(b, questId)
  {
    FindFrom(store, questId, 0)
  }

  const NoBoostError := "Error creating boosts"

  /**
   * The handler: an error when no boost is attached to the quest;
   * otherwise the store with the first such boost patched and every other
   * boost left as it was.
   */
  function Update(store: seq<Boost>, q: UpdateBoostQuery): (r: Result<seq<Boost>>)
    ensures r.Failure? <==> forall b :: b in store ==> !Matches(b, q.questId)
    ensures r.Failure? ==> r.error == NoBoostError
    ensures r.Success? ==>
              var i := FindBoost(store, q.questId).value;
              && |r.value| == |store|
              && r.value[i] == ApplyPatch(store[i], q)
              && forall j :: 0 <= j < |store| && j != i ==> r.value[j] == store[j]
  {
    match FindBoost(store, q.questId)
    case None => Failure(NoBoostError)
    case Some(i) => Success(store[i := ApplyPatch(store[i], q)])
  }

  /** The store after the request: unchanged when the update is rejected. */
  function StoreAfter(store: seq<Boost>, q: UpdateBoostQuery): (s: seq<Boost>)
    ensures (forall b :: b in store ==> !Matches(b, q.questId)) ==> s == store
    ensures |s| == |store|
  {
    match Update(store, q)
    case Success(updated) => updated
    case Failure(_) => store
  }

  /** Two stores whose boosts carry the same `quests` arrays, position by position, answer every filter alike. */
  lemma SameQuestsSameFind(s1: seq<Boost>, s2: seq<Boost>, questId: int)
    requires |s1| == |s2|
    requires forall j :: 0 <= j < |s1| ==> s1[j].quests == s2[j].quests
    ensures FindBoost(s1, questId) == FindBoost(s2, questId)
  {
    var r1, r2 := FindBoost(s1, questId), FindBoost(s2, questId);
    if r1.Some? {
      assert Matches(s2[r1.value], questId);
      assert s2[r1.value] in s2;
    }
    if r2.Some? {
      assert Matches(s1[r2.value], questId);
      assert s1[r2.value] in s1;
    }
  }

  /**
   * An update never changes which boost `find_one` selects, for any quest:
   * the patch does not write `quests`.
   */
  lemma UpdateKeepsSelection(store: seq<Boost>, q: UpdateBoostQuery, questId: int)
    ensures FindBoost(StoreAfter(store, q), questId) == FindBoost(store, questId)
  {
    SameQuestsSameFind(StoreAfter(store, q), store, questId);
  }

  /** Sending the same update twice leaves the store as sending it once. */
  lemma UpdateIdempotent(store: seq<Boost>, q: UpdateBoostQuery)
    ensures StoreAfter(StoreAfter(store, q), q) == StoreAfter(store, q)
  {
    var once := StoreAfter(store, q);
    match FindBoost(store, q.questId)
    case None =>
    case Some(i) =>
      ApplyPatchIdempotent(store[i], q);
      UpdateKeepsSelection(store, q, q.questId);
  }

  /** `remove_boost` has no effect on the outcome. */
  lemma UpdateIgnoresRemoveBoost(store: seq<Boost>, q: UpdateBoostQuery, removeBoost: Option<bool>)
    ensures Update(store, q.(removeBoost := removeBoost)) == Update(store, q)
  {
    match FindBoost(store, q.questId)
    case None =>
    case Some(i) =>
      ApplyPatchIgnoresRemoveBoost(store[i], q, removeBoost);
  }
}

=== FILE: stable_sort.dfy ===
/**
 * The ordering used by the `$sort` stages of the task pipeline, and a stable
 * insertion sort on it.
 *
 * A `$sort` compares one field of each document. The fields sorted on here
 * are either numbers or absent/null; in BSON's comparison order an absent or
 * null field sorts before every number.
 */
module StableSort {

  /** The value of the sorted-on field: absent or null, or a number. */
  datatype Key = Missing | Number(n: int)

  /** Ascending BSON order on keys: missing first, then numbers by value. */
  predicate KeyLe(a: Key, b: Key) {
    match a
    case Missing => true
    case Number(x) => b.Number? && x <= b.n
  }

  /** `KeyLe` is a total order: reflexive, antisymmetric, transitive and total. */
  lemma KeyLeTotalOrder(a: Key, b: Key, c: Key)
    ensures KeyLe(a, a)
    ensures KeyLe(a, b) || KeyLe(b, a)
    ensures KeyLe(a, b) && KeyLe(b, a) ==> a == b
    ensures KeyLe(a, b) && KeyLe(b, c) ==> KeyLe(a, c)
    ensures KeyLe(Missing, b) && (b.Number? ==> !KeyLe(b, Missing))
  {
  }

  /** `s` is in ascending order of `key`. */
  ghost predicate SortedBy<T(!new)>(s: seq<T>, key: T -> Key) {
    forall i, j :: 0 <= i < j < |s| ==> KeyLe(key(s[i]), key(s[j]))
  }

  /** The elements of `s` whose key is `k`, in their order in `s`. */
  function WithKey<T(!new)>(s: seq<T>, key: T -> Key, k: Key): (r: seq<T>)
    ensures |r| <= |s|
  {
    if |s| == 0 then []
    else if key(s[0]) == k then [s[0]] + WithKey(s[1..], key, k)
    else WithKey(s[1..], key, k)
  }

  /** The group of key `k` holds exactly the elements with key `k`. */
  lemma {:induction false} WithKeyMembers<T(!new)>(s: seq<T>, key: T -> Key, k: Key)
    ensures forall x :: x in WithKey(s, key, k) <==> x in s && key(x) == k
  {
    if |s| > 0 {
      WithKeyMembers(s[1..], key, k);
      assert forall x :: x in s <==> x == s[0] || x in s[1..];
    }
  }

  /** Filtering by key distributes over concatenation. */
  lemma {:induction false} WithKeyAppend<T(!new)>(a: seq<T>, b: seq<T>, key: T -> Key, k: Key)
    ensures WithKey(a + b, key, k) == WithKey(a, key, k) + WithKey(b, key, k)
  {
    if |a| == 0 {
      assert a + b == b;
    } else {
      assert (a + b)[1..] == a[1..] + b;
      WithKeyAppend(a[1..], b, key, k);
    }
  }

  /**
   * Inserts `x` into the sorted `s` in front of the first element whose key
   * is not smaller than `x`'s, so `x` lands before all elements with an
   * equal key.
   */
  function Insert<T(!new)>(x: T, s: seq<T>, key: T -> Key): (r: seq<T>)
    ensures multiset(r) == multiset(s) + multiset{x}
  {
    if |s| == 0 then [x]
    else if KeyLe(key(x), key(s[0])) then [x] + s
    else
      assert s == [s[0]] + s[1..];
      [s[0]] + Insert(x, s[1..], key)
  }

  /** Inserting into a sorted sequence keeps it sorted. */
  lemma {:induction false} InsertSorted<T(!new)>(x: T, s: seq<T>, key: T -> Key)
    requires SortedBy(s, key)
    ensures SortedBy(Insert(x, s, key), key)
  {
    if |s| > 0 && !KeyLe(key(x), key(s[0])) {
      var rest := Insert(x, s[1..], key);
      InsertSorted(x, s[1..], key);
      forall i | 0 <= i < |rest|
        ensures KeyLe(key(s[0]), key(rest[i]))
      {
        assert rest[i] in multiset(rest);
        if rest[i] != x {
          assert rest[i] in multiset(s[1..]);
          var j :| 0 <= j < |s[1..]| && s[1..][j] == rest[i];
          assert s[j + 1] == rest[i];
        }
      }
      var r := [s[0]] + rest;
      assert Insert(x, s, key) == r;
      forall i, j | 0 <= i < j < |r|
        ensures KeyLe(key(r[i]), key(r[j]))
      {
        if i > 0 {
          assert r[i] == rest[i - 1] && r[j] == rest[j - 1];
        }
      }
    }
  }

  /**
   * `x` enters the group of its key at the front: the elements skipped over
   * all have strictly smaller keys.
   */
  lemma {:induction false} InsertWithKey<T(!new)>(x: T, s: seq<T>, key: T -> Key, k: Key)
    requires SortedBy(s, key)
    ensures WithKey(Insert(x, s, key), key, k) == (if key(x) == k then [x] else []) + WithKey(s, key, k)
  {
    if |s| == 0 {
      assert Insert(x, s, key) == [x];
    } else if KeyLe(key(x), key(s[0])) {
      var r := [x] + s;
      assert Insert(x, s, key) == r;
      assert r[1..] == s;
    } else {
      var rest := Insert(x, s[1..], key);
      var r := [s[0]] + rest;
      assert Insert(x, s, key) == r;
      assert r[0] == s[0] && r[1..] == rest;
      assert SortedBy(s[1..], key);
      InsertWithKey(x, s[1..], key, k);
      assert key(x) != key(s[0]);
      if key(s[0]) == k {
        assert WithKey(r, key, k) == [s[0]] + WithKey(rest, key, k);
        assert WithKey(s, key, k) == [s[0]] + WithKey(s[1..], key, k);
      } else {
        assert WithKey(r, key, k) == WithKey(rest, key, k);
        assert WithKey(s, key, k) == WithKey(s[1..], key, k);
      }
    }
  }

  /**
   * A stable sort of `s` ascending on `key`, as one `$sort` stage under the
   * assumption that the store sorts stably.
   */
  function SortBy<T(!new)>(s: seq<T>, key: T -> Key): (r: seq<T>)
    ensures multiset(r) == multiset(s)
    ensures SortedBy(r, key)
    ensures forall k :: WithKey(r, key, k) == WithKey(s, key, k)
  {
    if |s| == 0 then []
    else
      var rest := SortBy(s[1..], key);
      assert s == [s[0]] + s[1..];
      InsertSorted(s[0], rest, key);
      assert forall k :: WithKey(Insert(s[0], rest, key), key, k) == WithKey(s, key, k) by {
        forall k
          ensures WithKey(Insert(s[0], rest, key), key, k) == WithKey(s, key, k)
        {
          InsertWithKey(s[0], rest, key, k);
          WithKeyAppend([s[0]], s[1..], key, k);
        }
      }
      Insert(s[0], rest, key)
  }

  /** Keeping only one key group of a sequence sorted on another key leaves it sorted. */
  lemma {:induction false} WithKeySorted<T(!new)>(s: seq<T>, group: T -> Key, k: Key, order: T -> Key)
    requires SortedBy(s, order)
    ensures SortedBy(WithKey(s, group, k), order)
  {
    if |s| > 0 {
      var rest := WithKey(s[1..], group, k);
      assert SortedBy(s[1..], order);
      WithKeySorted(s[1..], group, k, order);
      if group(s[0]) == k {
        var r := [s[0]] + rest;
        forall i, j | 0 <= i < j < |r|
          ensures KeyLe(order(r[i]), order(r[j]))
        {
          assert r[j] == rest[j - 1];
          if i == 0 {
            WithKeyMembers(s[1..], group, k);
            assert rest[j - 1] in s[1..];
            var m :| 0 <= m < |s[1..]| && s[1..][m] == rest[j - 1];
            assert s[m + 1] == r[j];
          } else {
            assert r[i] == rest[i - 1];
          }
        }
      }
    }
  }

  /** Two elements of one key group keep their relative order in that group. */
  lemma {:induction false} WithKeyPositions<T(!new)>(s: seq<T>, key: T -> Key, i: int, j: int)
    requires 0 <= i < j < |s| && key(s[i]) == key(s[j])
    ensures exists a, b :: 0 <= a < b < |WithKey(s, key, key(s[i]))|
                          && WithKey(s, key, key(s[i]))[a] == s[i]
                          && WithKey(s, key, key(s[i]))[b] == s[j]
  {
    var k := key(s[i]);
    var rest := WithKey(s[1..], key, k);
    if i == 0 {
      assert s[j] == s[1..][j - 1];
      WithKeyMembers(s[1..], key, k);
      assert s[j] in rest;
      var b :| 0 <= b < |rest| && rest[b] == s[j];
      assert WithKey(s, key, k) == [s[0]] + rest;
      assert WithKey(s, key, k)[0] == s[i] && WithKey(s, key, k)[b + 1] == s[j];
    } else {
      assert s[i] == s[1..][i - 1] && s[j] == s[1..][j - 1];
      WithKeyPositions(s[1..], key, i - 1, j - 1);
      var a, b :| 0 <= a < b < |rest| && rest[a] == s[i] && rest[b] == s[j];
      if key(s[0]) == k {
        assert WithKey(s, key, k) == [s[0]] + rest;
        assert WithKey(s, key, k)[a + 1] == s[i] && WithKey(s, key, k)[b + 1] == s[j];
      } else {
        assert WithKey(s, key, k) == rest;
      }
    }
  }

  /**
   * Two successive stable sorts, first on `first` and then on `second`:
   * the result is ordered on `second`, and among elements with equal
   * `second` keys the order on `first` left by the first sort survives.
   * This rests on both sorts being stable.
   */
  lemma TwoStableSorts<T(!new)>(s: seq<T>, first: T -> Key, second: T -> Key)
    ensures multiset(SortBy(SortBy(s, first), second)) == multiset(s)
    ensures SortedBy(SortBy(SortBy(s, first), second), second)
    ensures var r := SortBy(SortBy(s, first), second);
            forall i, j :: 0 <= i < j < |r| && second(r[i]) == second(r[j]) ==> KeyLe(first(r[i]), first(r[j]))
  {
    var s1 := SortBy(s, first);
    var r := SortBy(s1, second);
    forall i, j | 0 <= i < j < |r| && second(r[i]) == second(r[j])
      ensures KeyLe(first(r[i]), first(r[j]))
    {
      var k := second(r[i]);
      WithKeyPositions(r, second, i, j);
      var g := WithKey(r, second, k);
      assert g == WithKey(s1, second, k);
      WithKeySorted(s1, second, k, first);
      var a, b :| 0 <= a < b < |g| && g[a] == r[i] && g[b] == r[j];
    }
  }
}

=== FILE: task_pipeline.dfy ===
/**
 * The aggregation pipeline of the task listing, one function per stage:
 * `$match` on the quest, `$lookup` of the caller's completion records,
 * `$lookup` of the quest, `$unwind`, `$match` on enabled quests,
 * `$addFields` of the endpoint-type priority, two `$sort`s and the final
 * `$project`.
 */
module TaskPipeline {
  import opened Wrappers
  import opened StableSort
  import opened TaskStore

  /** Stage 1 (`$match`): the catalog tasks of the requested quest, in catalog order. */
  function MatchQuest(tasks: seq<TaskDoc>, questId: int): (r: seq<TaskDoc>)
    ensures |r| <= |tasks|
    ensures forall t :: t in r <==> t in tasks && t.questId == questId
  {
    if |tasks| == 0 then []
    else if tasks[0].questId == questId then [tasks[0]] + MatchQuest(tasks[1..], questId)
    else MatchQuest(tasks[1..], questId)
  }

  /** The completion records of one task by one address. */
  function CompletionsFor(completions: seq<Completion>, taskId: int, address: string): (r: seq<Completion>)
    ensures forall c :: c in r <==> c in completions && c.taskId == taskId && c.address == address
  {
    if |completions| == 0 then []
    else
      var c := completions[0];
      (if c.taskId == taskId && c.address == address then [c] else [])
        + CompletionsFor(completions[1..], taskId, address)
  }

  /** A task with the array the completion `$lookup` attaches to it. */
  datatype Joined = Joined(task: TaskDoc, completed: seq<Completion>)

  /**
   * Stage 2 (`$lookup` from `completed_tasks`): a left join, so every task
   * stays, carrying the records whose `task_id` is its `id` and whose
   * `address` is the caller's.
   */
  function LookupCompleted(tasks: seq<TaskDoc>, completions: seq<Completion>, address: string): (r: seq<Joined>)
    ensures |r| == |tasks|
    ensures forall i :: 0 <= i < |r| ==>
              r[i].task == tasks[i] && r[i].completed == CompletionsFor(completions, tasks[i].id, address)
  {
    if |tasks| == 0 then []
    else [Joined(tasks[0], CompletionsFor(completions, tasks[0].id, address))]
           + LookupCompleted(tasks[1..], completions, address)
  }

  /** The quests whose `id` is `id`. */
  function QuestsWithId(quests: seq<Quest>, id: int): (r: seq<Quest>)
    ensures forall q :: q in r <==> q in quests && q.id == id
  {
    if |quests| == 0 then []
    else (if quests[0].id == id then [quests[0]] else []) + QuestsWithId(quests[1..], id)
  }

  /** A task after both lookups: its completion records and its matching quests. */
  datatype Looked = Looked(task: TaskDoc, completed: seq<Completion>, quests: seq<Quest>)

  /** Stage 3 (`$lookup` from `quests`): attach every quest whose `id` is the task's `quest_id`. */
  function LookupQuest(joined: seq<Joined>, quests: seq<Quest>): (r: seq<Looked>)
    ensures |r| == |joined|
    ensures forall i :: 0 <= i < |r| ==>
              && r[i].task == joined[i].task
              && r[i].completed == joined[i].completed
              && r[i].quests == QuestsWithId(quests, joined[i].task.questId)
  {
    if |joined| == 0 then []
    else [Looked(joined[0].task, joined[0].completed, QuestsWithId(quests, joined[0].task.questId))]
           + LookupQuest(joined[1..], quests)
  }

  /** A task paired with one of its quests. */
  datatype Row = Row(task: TaskDoc, completed: seq<Completion>, quest: Quest)

  /** The rows `$unwind` makes of one record: one per element of its quest array. */
  function UnwindOne(l: Looked): (r: seq<Row>)
    ensures |r| == |l.quests|
    ensures forall row :: row in r <==> row.task == l.task && row.completed == l.completed && row.quest in l.quests
  {
    var r := seq(|l.quests|, i requires 0 <= i < |l.quests| => Row(l.task, l.completed, l.quests[i]));
    assert forall q :: q in l.quests ==> Row(l.task, l.completed, q) in r by {
      forall q | q in l.quests
        ensures Row(l.task, l.completed, q) in r
      {
        var i :| 0 <= i < |l.quests| && l.quests[i] == q;
        assert r[i] == Row(l.task, l.completed, q);
      }
    }
    r
  }

  /**
   * Stage 4 (`$unwind` of the quest array): one row per (task, quest) pair;
   * a task whose quest array is empty yields no row.
   */
  function Unwind(looked: seq<Looked>): (r: seq<Row>)
    ensures forall row :: row in r <==>
              exists l :: l in looked && row.task == l.task && row.completed == l.completed && row.quest in l.quests
  {
    if |looked| == 0 then []
    else
      assert forall l :: l in looked <==> l == looked[0] || l in looked[1..];
      UnwindOne(looked[0]) + Unwind(looked[1..])
  }

  /** Stage 5 (`$match` on `quest.disabled: false`): an absent flag does not match. */
  function MatchEnabled(rows: seq<Row>): (r: seq<Row>)
    ensures |r| <= |rows|
    ensures forall row :: row in r <==> row in rows && row.quest.disabled == Some(false)
  {
    if |rows| == 0 then []
    else (if rows[0].quest.disabled == Some(false) then [rows[0]] else []) + MatchEnabled(rows[1..])
  }

  /**
   * The display priority of an endpoint type: "quiz" first, "default"
   * second, every other type (and an absent one) last.
   */
  function SortOrder(endpointType: Option<string>): (r: int)
    ensures r in {1, 2, 3}
    ensures r == 1 <==> endpointType == Some("quiz")
    ensures r == 2 <==> endpointType == Some("default")
    ensures r == 3 <==> endpointType !in {Some("quiz"), Some("default")}
  {
    match endpointType
    case Some(t) =>
      if t == "quiz" then 1
      else if t == "default" then 2
      else 3
    case None => 3
  }

  /** A row with its derived `sort_order` field. */
  datatype Ranked = Ranked(row: Row, sortOrder: int)

  /** Stage 6 (`$addFields`): attach `sort_order` to every row. */
  function AddSortOrder(rows: seq<Row>): (r: seq<Ranked>)
    ensures |r| == |rows|
    ensures forall i :: 0 <= i < |r| ==>
              r[i].row == rows[i] && r[i].sortOrder == SortOrder(rows[i].task.verifyEndpointType)
  {
    seq(|rows|, i requires 0 <= i < |rows| => Ranked(rows[i], SortOrder(rows[i].task.verifyEndpointType)))
  }

  /** The key of the first `$sort`. */
  function SortOrderKey(r: Ranked): Key {
    Number(r.sortOrder)
  }

  /** The key of the second `$sort`: an absent `overwrite_order` sorts first. */
  function OverwriteOrderKey(r: Ranked): Key {
    match r.row.task.overwriteOrder
    case None => Missing
    case Some(n) => Number(n)
  }

  /** Stages 7 and 8: sort on `sort_order`, then sort the result on `overwrite_order`. */
  function SortStages(ranked: seq<Ranked>): (r: seq<Ranked>)
    ensures |r| == |ranked| && multiset(r) == multiset(ranked)
    ensures SortedBy(r, OverwriteOrderKey)
  {
    SortBy(SortBy(ranked, SortOrderKey), OverwriteOrderKey)
  }

  /**
   * The document the `$project` stage emits: the public task fields plus the
   * computed `completed` flag; `_id`, `overwrite_order`, `sort_order` and the
   * joined quest are dropped.
   */
  datatype ProjectedDoc = ProjectedDoc(
    id: int,
    questId: int,
    name: Option<string>,
    href: Option<string>,
    cta: Option<string>,
    verifyEndpoint: Option<string>,
    verifyRedirect: Option<string>,
    verifyEndpointType: Option<string>,
    desc: Option<string>,
    completed: bool,
    quizName: Option<int>,
    calls: Option<seq<string>>,
    contracts: Option<seq<string>>,
    apiUrl: Option<string>,
    regex: Option<string>
  )

  /**
   * Stage 9 (`$project`) on one row: the public fields are copied from the
   * task, absent where the task lacks them, and `completed` is whether its
   * completion array is non-empty.
   */
  function Project(r: Ranked): (d: ProjectedDoc)
    ensures d.id == r.row.task.id && d.questId == r.row.task.questId
    ensures d.name == r.row.task.name && d.href == r.row.task.href && d.cta == r.row.task.cta
    ensures d.verifyEndpoint == r.row.task.verifyEndpoint && d.verifyRedirect == r.row.task.verifyRedirect
    ensures d.verifyEndpointType == r.row.task.verifyEndpointType && d.desc == r.row.task.desc
    ensures d.quizName == r.row.task.quizName && d.calls == r.row.task.calls
    ensures d.contracts == r.row.task.contracts && d.apiUrl == r.row.task.apiUrl && d.regex == r.row.task.regex
    ensures d.completed <==> exists c :: c in r.row.completed
  {
    var t := r.row.task;
    assert |r.row.completed| > 0 ==> r.row.completed[0] in r.row.completed;
    ProjectedDoc(t.id, t.questId, t.name, t.href, t.cta, t.verifyEndpoint, t.verifyRedirect,
                 t.verifyEndpointType, t.desc, |r.row.completed| > 0, t.quizName, t.calls,
                 t.contracts, t.apiUrl, t.regex)
  }

  /** Stage 9 on the whole stream, keeping its order. */
  function ProjectAll(ranked: seq<Ranked>): (r: seq<ProjectedDoc>)
    ensures |r| == |ranked|
    ensures forall i :: 0 <= i < |r| ==> r[i] == Project(ranked[i])
  {
    seq(|ranked|, i requires 0 <= i < |ranked| => Project(ranked[i]))
  }

  /** Stages 1 to 5: the (task, enabled quest) rows of the requested quest. */
  function Joins(db: Database, questId: int, address: string): seq<Row> {
    var tasks := MatchQuest(db.tasks, questId);
    var joined := LookupCompleted(tasks, db.completedTasks, address);
    MatchEnabled(Unwind(LookupQuest(joined, db.quests)))
  }

  /** Stages 1 to 8: the joined rows with their priority, in final order. */
  function Ordered(db: Database, questId: int, address: string): seq<Ranked> {
    SortStages(AddSortOrder(Joins(db, questId, address)))
  }

  /** A joined row with the priority stage 6 gives it. */
  function Rank(row: Row): Ranked {
    Ranked(row, SortOrder(row.task.verifyEndpointType))
  }

  /**
   * The whole pipeline: the documents the aggregation cursor delivers, one
   * per joined (task, enabled quest) row: each is the projection of a
   * joined row, and each joined row is projected.
   */
  function Aggregate(db: Database, questId: int, address: string): (r: seq<ProjectedDoc>)
    ensures |r| == |Joins(db, questId, address)|
    ensures forall d :: d in r ==> exists row :: row in Joins(db, questId, address) && d == Project(Rank(row))
    ensures forall row :: row in Joins(db, questId, address) ==> Project(Rank(row)) in r
  {
    AggregateMembers(Joins(db, questId, address));
    ProjectAll(Ordered(db, questId, address))
  }

  /** Projecting a stream emits the projection of each of its rows. */
  lemma ProjectedMember(rows: seq<Ranked>, row: Ranked)
    requires row in rows
    ensures Project(row) in ProjectAll(rows)
  {
    var i :| 0 <= i < |rows| && rows[i] == row;
    assert ProjectAll(rows)[i] == Project(row);
  }

  /** Stages 6 to 9 on any stream of joined rows emit exactly the projections of its ranked rows. */
  lemma AggregateMembers(rows: seq<Row>)
    ensures forall d :: d in ProjectAll(SortStages(AddSortOrder(rows))) ==> exists row :: row in rows && d == Project(Rank(row))
    ensures forall row :: row in rows ==> Project(Rank(row)) in ProjectAll(SortStages(AddSortOrder(rows)))
  {
    var ranked := AddSortOrder(rows);
    var o := SortStages(ranked);
    var out := ProjectAll(o);
    forall d | d in out
      ensures exists row :: row in rows && d == Project(Rank(row))
    {
      var i :| 0 <= i < |out| && out[i] == d;
      assert o[i] in multiset(ranked);
      var j :| 0 <= j < |ranked| && ranked[j] == o[i];
      assert rows[j] in rows && d == Project(Rank(rows[j]));
    }
    forall row | row in rows
      ensures Project(Rank(row)) in out
    {
      var j :| 0 <= j < |rows| && rows[j] == row;
      assert ranked[j] == Rank(row);
      assert Rank(row) in multiset(o);
      ProjectedMember(o, Rank(row));
    }
  }

  /** A task of quest `questId` shown with a given quest and the caller's completion records. */
  ghost predicate Visible(db: Database, questId: int, address: string, row: Row) {
    && row.task in db.tasks
    && row.task.questId == questId
    && row.completed == CompletionsFor(db.completedTasks, row.task.id, address)
    && row.quest in db.quests
    && row.quest.id == row.task.questId
    && row.quest.disabled == Some(false)
  }

  /** A record after both lookups is a task of the quest with its completions and its quests. */
  lemma LookedRecord(db: Database, questId: int, address: string, l: Looked)
    requires l in LookupQuest(LookupCompleted(MatchQuest(db.tasks, questId), db.completedTasks, address), db.quests)
    ensures l.task in db.tasks && l.task.questId == questId
    ensures l.completed == CompletionsFor(db.completedTasks, l.task.id, address)
    ensures l.quests == QuestsWithId(db.quests, l.task.questId)
  {
    var tasks := MatchQuest(db.tasks, questId);
    var looked := LookupQuest(LookupCompleted(tasks, db.completedTasks, address), db.quests);
    var i :| 0 <= i < |looked| && looked[i] == l;
    assert tasks[i] in tasks;
  }

  /** Every row stages 1 to 5 yield is visible. */
  lemma JoinsOnlyVisible(db: Database, questId: int, address: string, row: Row)
    requires row in Joins(db, questId, address)
    ensures Visible(db, questId, address, row)
  {
    var looked := LookupQuest(LookupCompleted(MatchQuest(db.tasks, questId), db.completedTasks, address), db.quests);
    assert row in Unwind(looked) && row.quest.disabled == Some(false);
    var l :| l in looked && row.task == l.task && row.completed == l.completed && row.quest in l.quests;
    LookedRecord(db, questId, address, l);
  }

  /** Every visible row is yielded by stages 1 to 5. */
  lemma VisibleInJoins(db: Database, questId: int, address: string, row: Row)
    requires Visible(db, questId, address, row)
    ensures row in Joins(db, questId, address)
  {
    var tasks := MatchQuest(db.tasks, questId);
    var joined := LookupCompleted(tasks, db.completedTasks, address);
    var looked := LookupQuest(joined, db.quests);
    assert row.task in tasks;
    var i :| 0 <= i < |tasks| && tasks[i] == row.task;
    var l := looked[i];
    assert l.task == row.task && l.completed == row.completed;
    assert row.quest in l.quests;
    assert l in looked;
    assert row in Unwind(looked);
  }

  /**
   * Stages 1 to 5 yield exactly the rows pairing a task of the requested
   * quest with an enabled quest of that id, each carrying exactly the
   * caller's completion records for it.
   */
  lemma JoinsExactlyVisible(db: Database, questId: int, address: string)
    ensures forall row :: row in Joins(db, questId, address) <==> Visible(db, questId, address, row)
  {
    forall row | row in Joins(db, questId, address)
      ensures Visible(db, questId, address, row)
    {
      JoinsOnlyVisible(db, questId, address, row);
    }
    forall row | Visible(db, questId, address, row)
      ensures row in Joins(db, questId, address)
    {
      VisibleInJoins(db, questId, address, row);
    }
  }

  /** Rows survive the priority and sorting stages unchanged, only reordered. */
  lemma OrderedRows(db: Database, questId: int, address: string)
    ensures forall r :: r in Ordered(db, questId, address) ==>
              r.row in Joins(db, questId, address)
              && r.sortOrder == SortOrder(r.row.task.verifyEndpointType)
  {
    var ranked := AddSortOrder(Joins(db, questId, address));
    TwoStableSorts(ranked, SortOrderKey, OverwriteOrderKey);
    forall r | r in Ordered(db, questId, address)
      ensures r.row in Joins(db, questId, address) && r.sortOrder == SortOrder(r.row.task.verifyEndpointType)
    {
      assert r in multiset(Ordered(db, questId, address));
      assert r in ranked;
    }
  }

  /** Every row of the final output is a visible row of the requested quest. */
  lemma OrderedOnlyVisible(db: Database, questId: int, address: string)
    ensures forall r :: r in Ordered(db, questId, address) ==> Visible(db, questId, address, r.row)
  {
    JoinsExactlyVisible(db, questId, address);
    OrderedRows(db, questId, address);
  }

  /** A task with no quest of its `quest_id` never reaches the output: `$unwind` drops it. */
  lemma OrphanTaskNeverShown(db: Database, questId: int, address: string, t: TaskDoc)
    requires forall q :: q in db.quests ==> q.id != t.questId
    ensures forall r :: r in Ordered(db, questId, address) ==> r.row.task != t
  {
    OrderedOnlyVisible(db, questId, address);
  }

  /**
   * A task none of whose quests has `disabled` equal to false never reaches
   * the output, whatever its completion records say.
   */
  lemma DisabledTaskNeverShown(db: Database, questId: int, address: string, t: TaskDoc)
    requires forall q :: q in db.quests && q.id == t.questId ==> q.disabled != Some(false)
    ensures forall r :: r in Ordered(db, questId, address) ==> r.row.task != t
  {
    OrderedOnlyVisible(db, questId, address);
  }

  /** Conversely, a catalog task of the quest with an enabled quest does reach the output. */
  lemma EnabledTaskShown(db: Database, questId: int, address: string, t: TaskDoc, q: Quest)
    requires t in db.tasks && t.questId == questId
    requires q in db.quests && q.id == questId && q.disabled == Some(false)
    ensures exists r :: r in Ordered(db, questId, address) && r.row.task == t
  {
    JoinsExactlyVisible(db, questId, address);
    var row := Row(t, CompletionsFor(db.completedTasks, t.id, address), q);
    assert row in Joins(db, questId, address);
    var rows := Joins(db, questId, address);
    var i :| 0 <= i < |rows| && rows[i] == row;
    var ranked := AddSortOrder(rows);
    assert ranked[i] in ranked;
    TwoStableSorts(ranked, SortOrderKey, OverwriteOrderKey);
    assert ranked[i] in multiset(Ordered(db, questId, address));
  }

  /**
   * The final order: a rearrangement of the prioritised rows, ascending on
   * `overwrite_order` (absent first), and among rows with the same
   * `overwrite_order` ascending on `sort_order`. The last part holds only
   * because both sorts are taken to be stable; no global ordering on
   * `sort_order` is claimed.
   */
  lemma OrderedSorting(db: Database, questId: int, address: string)
    ensures multiset(Ordered(db, questId, address)) == multiset(AddSortOrder(Joins(db, questId, address)))
    ensures SortedBy(Ordered(db, questId, address), OverwriteOrderKey)
    ensures var o := Ordered(db, questId, address);
            forall i, j :: 0 <= i < j < |o| && o[i].row.task.overwriteOrder == o[j].row.task.overwriteOrder
              ==> o[i].sortOrder <= o[j].sortOrder
  {
    SortStagesOrder(AddSortOrder(Joins(db, questId, address)));
  }

  /** The two sorts on any stream of prioritised rows, as used by `OrderedSorting`. */
  lemma SortStagesOrder(ranked: seq<Ranked>)
    ensures multiset(SortStages(ranked)) == multiset(ranked)
    ensures SortedBy(SortStages(ranked), OverwriteOrderKey)
    ensures var o := SortStages(ranked);
            forall i, j :: 0 <= i < j < |o| && o[i].row.task.overwriteOrder == o[j].row.task.overwriteOrder
              ==> o[i].sortOrder <= o[j].sortOrder
  {
    var o := SortStages(ranked);
    TwoStableSorts(ranked, SortOrderKey, OverwriteOrderKey);
    forall i, j | 0 <= i < j < |o| && o[i].row.task.overwriteOrder == o[j].row.task.overwriteOrder
      ensures o[i].sortOrder <= o[j].sortOrder
    {
      assert OverwriteOrderKey(o[i]) == OverwriteOrderKey(o[j]);
      assert KeyLe(SortOrderKey(o[i]), SortOrderKey(o[j]));
    }
  }

  /**
   * When no task of the catalog sets `overwrite_order`, the second sort
   * only sees ties, so the output is in endpoint-type priority order
   * (quiz, then default, then the rest). Like the tie rule, this rests on
   * stable sorting.
   */
  lemma NoOverridesPriorityOrder(db: Database, questId: int, address: string)
    requires forall t :: t in db.tasks ==> t.overwriteOrder.None?
    ensures var o := Ordered(db, questId, address);
            forall i, j :: 0 <= i < j < |o| ==> o[i].sortOrder <= o[j].sortOrder
  {
    var o := Ordered(db, questId, address);
    OrderedOnlyVisible(db, questId, address);
    OrderedSorting(db, questId, address);
    forall i, j | 0 <= i < j < |o|
      ensures o[i].sortOrder <= o[j].sortOrder
    {
      assert o[i] in o && o[j] in o;
    }
  }

  /**
   * Every document the pipeline emits belongs to the requested quest, and
   * its `completed` flag is true exactly when some completion record names
   * its task and the caller's address.
   */
  lemma AggregateFields(db: Database, questId: int, address: string)
    ensures forall d :: d in Aggregate(db, questId, address) ==>
              && d.questId == questId
              && (d.completed <==> exists c :: c in db.completedTasks && c.taskId == d.id && c.address == address)
  {
    var o := Ordered(db, questId, address);
    OrderedOnlyVisible(db, questId, address);
    forall d | d in Aggregate(db, questId, address)
      ensures d.questId == questId
      ensures d.completed <==> exists c :: c in db.completedTasks && c.taskId == d.id && c.address == address
    {
      var i :| 0 <= i < |o| && Project(o[i]) == d;
      assert o[i] in o;
    }
  }
}

=== FILE: task_response.dfy ===
/**
 * What the task listing does with the aggregation's cursor: decode each
 * document into a `UserTask`, skip what fails, and turn the collected list
 * into one of three outcomes.
 */
module TaskResponse {
  import opened Wrappers
  import opened TaskStore
  import opened TaskPipeline

  /** Rust's `u32` and `i64`, the widths `UserTask` declares. */
  type U32 = x: int | 0 <= x < 0x1_0000_0000
  type I64 = x: int | -0x8000_0000_0000_0000 <= x < 0x8000_0000_0000_0000

  /** The public task the endpoint returns; `completed` is always present. */
  datatype UserTask = UserTask(
    id: U32,
    questId: U32,
    name: string,
    href: string,
    cta: string,
    verifyEndpoint: string,
    verifyEndpointType: string,
    verifyRedirect: Option<string>,
    desc: string,
    completed: bool,
    quizName: Option<I64>,
    calls: Option<seq<string>>,
    contracts: Option<seq<string>>,
    apiUrl: Option<string>,
    regex: Option<string>
  )

  /**
   * The document a `UserTask` serialises to. The model's `None` stands both
   * for an absent field and for a null one, so it covers serde writing `None`
   * as null. Every task serialises to a document that can be read back.
   */
  function Encode(u: UserTask): (d: ProjectedDoc)
    ensures Decodable(d)
    ensures d.id == u.id && d.questId == u.questId && d.completed == u.completed
  {
    ProjectedDoc(u.id, u.questId, Some(u.name), Some(u.href), Some(u.cta), Some(u.verifyEndpoint),
                 u.verifyRedirect, Some(u.verifyEndpointType), Some(u.desc), u.completed,
                 (match u.quizName case Some(n) => Some(n as int) case None => None),
                 u.calls, u.contracts, u.apiUrl, u.regex)
  }

  /** Whether a document's fields have the presence and ranges `UserTask` demands. */
  predicate Decodable(d: ProjectedDoc) {
    && 0 <= d.id < 0x1_0000_0000
    && 0 <= d.questId < 0x1_0000_0000
    && d.name.Some? && d.href.Some? && d.cta.Some? && d.verifyEndpoint.Some?
    && d.verifyEndpointType.Some? && d.desc.Some?
    && (d.quizName.Some? ==> -0x8000_0000_0000_0000 <= d.quizName.value < 0x8000_0000_0000_0000)
  }

  /**
   * Deserialising a projected document into a `UserTask`: it fails when a
   * required field is absent or a number does not fit its Rust type, and
   * when it succeeds the task serialises back to the very same document.
   */
  function Decode(d: ProjectedDoc): (r: Option<UserTask>)
    ensures r.Some? <==> Decodable(d)
    ensures r.Some? ==> Encode(r.value) == d
  {
    if !Decodable(d) then None
    else
      Some(UserTask(d.id, d.questId, d.name.value, d.href.value, d.cta.value, d.verifyEndpoint.value,
                    d.verifyEndpointType.value, d.verifyRedirect, d.desc.value, d.completed,
                    (match d.quizName case Some(n) => Some(n) case None => None),
                    d.calls, d.contracts, d.apiUrl, d.regex))
  }

  /** Every task decodes from its own serialisation. */
  lemma DecodeEncode(u: UserTask)
    ensures Decode(Encode(u)) == Some(u)
  {
  }

  /** One step of the cursor: a document, or an error reading it. */
  datatype CursorItem = Item(doc: ProjectedDoc) | ItemError

  /** The result of starting the aggregation: a failure, or a stream of items. */
  datatype Cursor = QueryFailed | Stream(items: seq<CursorItem>)

  /** Whether an item contributes a task: it is a document that decodes. */
  predicate Usable(item: CursorItem) {
    item.Item? && Decode(item.doc).Some?
  }

  /**
   * Drains the cursor, keeping the decoded tasks in stream order and
   * skipping both read errors and documents that do not decode.
   */
  function Collect(items: seq<CursorItem>): (r: seq<UserTask>)
    ensures |r| <= |items|
    ensures forall u :: u in r <==>
              exists i :: 0 <= i < |items| && Usable(items[i]) && Decode(items[i].doc) == Some(u)
  {
    if |items| == 0 then []
    else
      var head := if Usable(items[0]) then [Decode(items[0].doc).value] else [];
      var r := head + Collect(items[1..]);
      assert forall i :: 0 < i < |items| ==> items[i] == items[1..][i - 1];
      r
  }

  /** Collecting distributes over concatenating streams. */
  lemma {:induction false} CollectAppend(a: seq<CursorItem>, b: seq<CursorItem>)
    ensures Collect(a + b) == Collect(a) + Collect(b)
  {
    if |a| == 0 {
      assert a + b == b;
    } else {
      assert (a + b)[1..] == a[1..] + b;
      CollectAppend(a[1..], b);
    }
  }

  /**
   * A bad item (a read error or an undecodable document) anywhere in the
   * stream is dropped without disturbing anything before or after it.
   */
  lemma CollectSkipsBadItem(before: seq<CursorItem>, bad: CursorItem, after: seq<CursorItem>)
    requires !Usable(bad)
    ensures Collect(before + [bad] + after) == Collect(before) + Collect(after)
  {
    CollectAppend(before + [bad], after);
    CollectAppend(before, [bad]);
    assert [bad][1..] == [];
    assert Collect([bad]) == [] + Collect([]);
  }

  /** The endpoint's outcome: the task list, or an error message. */
  datatype Response = Ok(tasks: seq<UserTask>) | Error(message: string)

  const QueryError := "Error querying tasks"
  const NoTasksError := "No tasks found for this quest_id"

  /**
   * The three outcomes: a failed aggregation is a query error, an empty
   * collected list is a "no tasks" error (never an OK empty list), and
   * otherwise the collected list is returned.
   */
  function Respond(cursor: Cursor): (r: Response)
    ensures r == Error(QueryError) <==> cursor.QueryFailed?
    ensures r == Error(NoTasksError) <==> cursor.Stream? && Collect(cursor.items) == []
    ensures r.Ok? <==> cursor.Stream? && Collect(cursor.items) != []
    ensures r.Ok? ==> r.tasks == Collect(cursor.items) && |r.tasks| > 0
  {
    match cursor
    case QueryFailed => Error(QueryError)
    case Stream(items) =>
      var tasks := Collect(items);
      if |tasks| == 0 then Error(NoTasksError) else Ok(tasks)
  }

  /** The cursor over a list of documents that reads without errors. */
  function Deliver(docs: seq<ProjectedDoc>): (items: seq<CursorItem>)
    ensures |items| == |docs|
    ensures forall i :: 0 <= i < |items| ==> items[i] == Item(docs[i])
  {
    seq(|docs|, i requires 0 <= i < |docs| => Item(docs[i]))
  }

  /**
   * The endpoint for `quest_id` and an already-normalised address. A
   * failure to read the store stands for the aggregation failing.
   */
  function GetTasks(db: Result<Database>, questId: int, address: string): (r: Response)
    ensures r == Error(QueryError) <==> db.Failure?
    ensures r.Ok? ==> db.Success? && 0 < |r.tasks| <= |Joins(db.value, questId, address)|
  {
    match db
    case Failure(_) => Respond(QueryFailed)
    case Success(snapshot) => Respond(Stream(Deliver(Aggregate(snapshot, questId, address))))
  }

  /**
   * Over an error-free cursor the collected tasks are exactly the decodings
   * of the documents, and the list is empty exactly when none decodes.
   */
  lemma CollectDelivered(docs: seq<ProjectedDoc>)
    ensures forall u :: u in Collect(Deliver(docs)) <==> exists d :: d in docs && Decode(d) == Some(u)
    ensures Collect(Deliver(docs)) == [] <==> forall d :: d in docs ==> !Decodable(d)
  {
    var items := Deliver(docs);
    var tasks := Collect(items);
    forall u | u in tasks
      ensures exists d :: d in docs && Decode(d) == Some(u)
    {
      var i :| 0 <= i < |items| && Usable(items[i]) && Decode(items[i].doc) == Some(u);
      assert docs[i] in docs;
    }
    forall d | d in docs && Decodable(d)
      ensures Decode(d).value in tasks
    {
      var i :| 0 <= i < |docs| && docs[i] == d;
      assert Usable(items[i]);
    }
    if tasks != [] {
      assert tasks[0] in tasks;
    }
  }

  /**
   * End to end: a store failure is a query error; otherwise every returned
   * task belongs to the quest and is marked completed exactly when a
   * completion record names it and the caller, and the "no tasks" error
   * comes exactly when no emitted document decodes.
   */
  lemma GetTasksOutcome(db: Result<Database>, questId: int, address: string)
    ensures db.Failure? ==> GetTasks(db, questId, address) == Error(QueryError)
    ensures db.Success? ==>
              var r := GetTasks(db, questId, address);
              && (r == Error(NoTasksError) <==> forall d :: d in Aggregate(db.value, questId, address) ==> !Decodable(d))
              && (r.Ok? ==> forall u :: u in r.tasks ==>
                    && u.questId == questId
                    && (u.completed <==> exists c :: c in db.value.completedTasks && c.taskId == u.id && c.address == address))
  {
    if db.Success? {
      var docs := Aggregate(db.value, questId, address);
      AggregateFields(db.value, questId, address);
      CollectDelivered(docs);
    }
  }

  /** A catalog task carries what `UserTask` demands: its required fields, and numbers in range. */
  predicate DecodableTask(t: TaskDoc) {
    && 0 <= t.id < 0x1_0000_0000
    && 0 <= t.questId < 0x1_0000_0000
    && t.name.Some? && t.href.Some? && t.cta.Some? && t.verifyEndpoint.Some?
    && t.verifyEndpointType.Some? && t.desc.Some?
    && (t.quizName.Some? ==> -0x8000_0000_0000_0000 <= t.quizName.value < 0x8000_0000_0000_0000)
  }

  /** A catalog task decodes exactly when every projection of it does. */
  lemma DecodableTaskProjection(r: Ranked)
    ensures DecodableTask(r.row.task) <==> Decodable(Project(r))
  {
  }

  /**
   * A returned task shows a catalog task: every public field is the
   * catalog entry's, a required field being present there.
   */
  predicate Presents(u: UserTask, t: TaskDoc) {
    && u.id == t.id && u.questId == t.questId
    && Some(u.name) == t.name && Some(u.href) == t.href && Some(u.cta) == t.cta
    && Some(u.verifyEndpoint) == t.verifyEndpoint && Some(u.verifyEndpointType) == t.verifyEndpointType
    && Some(u.desc) == t.desc && u.verifyRedirect == t.verifyRedirect
    && (t.quizName.None? ==> u.quizName.None?)
    && (t.quizName.Some? ==> u.quizName.Some? && u.quizName.value == t.quizName.value)
    && u.calls == t.calls && u.contracts == t.contracts && u.apiUrl == t.apiUrl && u.regex == t.regex
  }

  /** A task whose serialisation is the projection of a row shows that row's task. */
  lemma EncodedProjectionPresents(u: UserTask, r: Ranked)
    requires Encode(u) == Project(r)
    ensures Presents(u, r.row.task)
  {
  }

  /** A task the listing can show: of the quest, decodable, and with an enabled quest of that id. */
  ghost predicate Listable(db: Database, questId: int, t: TaskDoc) {
    && t in db.tasks
    && t.questId == questId
    && DecodableTask(t)
    && exists q :: q in db.quests && q.id == questId && q.disabled == Some(false)
  }

  /**
   * Conversely to `GetTasksOutcome`: a listable task is returned, with the
   * fields of its catalog entry and its completion flag.
   */
  lemma ListableTaskReturned(db: Database, questId: int, address: string, t: TaskDoc)
    requires Listable(db, questId, t)
    ensures GetTasks(Success(db), questId, address).Ok?
    ensures exists u :: u in GetTasks(Success(db), questId, address).tasks
              && Presents(u, t)
              && (u.completed <==> exists c :: c in db.completedTasks && c.taskId == t.id && c.address == address)
  {
    var d := ListableDocument(db, questId, address, t);
    var docs := Aggregate(db, questId, address);
    CollectDelivered(docs);
    var u := Decode(d).value;
    assert u in GetTasks(Success(db), questId, address).tasks;
    var r: Ranked :| r.row.task == t && d == Project(r);
    EncodedProjectionPresents(u, r);
    GetTasksOutcome(Success(db), questId, address);
  }

  /** The document the pipeline emits for a listable task. */
  lemma ListableDocument(db: Database, questId: int, address: string, t: TaskDoc) returns (d: ProjectedDoc)
    requires Listable(db, questId, t)
    ensures d in Aggregate(db, questId, address) && Decodable(d)
    ensures exists r: Ranked :: r.row.task == t && d == Project(r)
  {
    var q :| q in db.quests && q.id == questId && q.disabled == Some(false);
    EnabledTaskShown(db, questId, address, t, q);
    var o := Ordered(db, questId, address);
    var row :| row in o && row.row.task == t;
    d := Project(row);
    ProjectedMember(o, row);
  }

  /**
   * Every returned task shows a listable catalog task, field for field,
   * with that task's completion flag.
   */
  lemma ReturnedTaskListable(db: Database, questId: int, address: string, u: UserTask)
    requires GetTasks(Success(db), questId, address).Ok?
    requires u in GetTasks(Success(db), questId, address).tasks
    ensures exists t :: Listable(db, questId, t) && Presents(u, t)
              && (u.completed <==> exists c :: c in db.completedTasks && c.taskId == t.id && c.address == address)
  {
    var docs := Aggregate(db, questId, address);
    CollectDelivered(docs);
    var d :| d in docs && Decode(d) == Some(u);
    DecodedDocumentListable(db, questId, address, d, u);
  }

  /** A task decoded from any document of the pipeline shows a listable catalog task. */
  lemma DecodedDocumentListable(db: Database, questId: int, address: string, d: ProjectedDoc, u: UserTask)
    requires d in Aggregate(db, questId, address) && Decode(d) == Some(u)
    ensures exists t :: Listable(db, questId, t) && Presents(u, t)
              && (u.completed <==> exists c :: c in db.completedTasks && c.taskId == t.id && c.address == address)
  {
    var o := Ordered(db, questId, address);
    var docs := Aggregate(db, questId, address);
    var i :| 0 <= i < |docs| && docs[i] == d;
    assert d == Project(o[i]);
    OrderedOnlyVisible(db, questId, address);
    assert o[i] in o;
    var t := o[i].row.task;
    assert Visible(db, questId, address, o[i].row);
    DecodableTaskProjection(o[i]);
    assert Listable(db, questId, t);
    EncodedProjectionPresents(u, o[i]);
    AggregateFields(db, questId, address);
  }

  /**
   * What the cursor can yield for a list of documents: each read gives its
   * document or fails, in which case the document is lost.
   */
  predicate ReadsOf(items: seq<CursorItem>, docs: seq<ProjectedDoc>) {
    && |items| == |docs|
    && forall i :: 0 <= i < |items| ==> items[i] == Item(docs[i]) || items[i] == ItemError
  }

  /**
   * Whatever reads fail, every task the handler still returns shows a
   * listable catalog task, field for field, with its completion flag.
   */
  lemma ReturnedDespiteReadErrors(db: Database, questId: int, address: string, items: seq<CursorItem>, u: UserTask)
    requires ReadsOf(items, Aggregate(db, questId, address))
    requires u in Collect(items)
    ensures exists t :: Listable(db, questId, t) && Presents(u, t)
              && (u.completed <==> exists c :: c in db.completedTasks && c.taskId == t.id && c.address == address)
  {
    var docs := Aggregate(db, questId, address);
    var i :| 0 <= i < |items| && Usable(items[i]) && Decode(items[i].doc) == Some(u);
    assert items[i] == Item(docs[i]) && docs[i] in docs;
    DecodedDocumentListable(db, questId, address, docs[i], u);
  }

  /** A stream without a usable item collects no task. */
  lemma {:induction false} NothingUsableCollectsNothing(items: seq<CursorItem>)
    requires forall i :: 0 <= i < |items| ==> !Usable(items[i])
    ensures Collect(items) == []
  {
    if |items| > 0 {
      NothingUsableCollectsNothing(items[1..]);
    }
  }

  /**
   * Read errors can hide every task: when all reads fail, the handler
   * answers "No tasks found for this quest_id", however many documents
   * the pipeline emitted.
   */
  lemma AllReadsFailing(docs: seq<ProjectedDoc>) returns (items: seq<CursorItem>)
    ensures ReadsOf(items, docs)
    ensures Respond(Stream(items)) == Error(NoTasksError)
  {
    items := seq(|docs|, i => ItemError);
    NothingUsableCollectsNothing(items);
  }

  /**
   * The "no tasks" error comes exactly when the store holds no listable
   * task for the quest.
   */
  lemma NoTasksExactlyWhenNoneListable(db: Database, questId: int, address: string)
    ensures (GetTasks(Success(db), questId, address) == Error(NoTasksError))
        <==> (forall t :: t in db.tasks ==> !Listable(db, questId, t))
  {
    var r := GetTasks(Success(db), questId, address);
    if t :| t in db.tasks && Listable(db, questId, t) {
      ListableTaskReturned(db, questId, address, t);
    }
    if r != Error(NoTasksError) {
      assert r.Ok?;
      assert r.tasks[0] in r.tasks;
      ReturnedTaskListable(db, questId, address, r.tasks[0]);
    }
  }
}

=== FILE: task_store.dfy ===
/**
 * The three collections the task listing reads, as in-memory snapshots:
 * the task catalog (`tasks`), the completion records (`completed_tasks`)
 * and the quests (`quests`).
 */
module TaskStore {
  import opened Wrappers

  /**
   * A stored task document. Fields a document may lack are `Option`s;
   * `id` and `quest_id` are taken to be present (the joins key on them).
   * `overwriteOrder` is the manual display order, absent on most tasks.
   */
  datatype TaskDoc = TaskDoc(
    id: int,
    questId: int,
    name: Option<string>,
    href: Option<string>,
    cta: Option<string>,
    verifyEndpoint: Option<string>,
    verifyEndpointType: Option<string>,
    verifyRedirect: Option<string>,
    desc: Option<string>,
    quizName: Option<int>,
    calls: Option<seq<string>>,
    contracts: Option<seq<string>>,
    apiUrl: Option<string>,
    regex: Option<string>,
    overwriteOrder: Option<int>
  )

  /** Evidence that `address` completed task `taskId`. */
  datatype Completion = Completion(taskId: int, address: string)

  /** A quest; `disabled` may be absent from the stored document. */
  datatype Quest = Quest(id: int, disabled: Option<bool>)

  /** A snapshot of the three collections. */
  datatype Database = Database(tasks: seq<TaskDoc>, completedTasks: seq<Completion>, quests: seq<Quest>)
}

=== FILE: wrappers.dfy ===
/** Optional values and success/failure results shared by the model. */
module Wrappers {

  /** A value that may be absent: a field missing from a document, or an optional request field. */
  datatype Option<+T> = None | Some(value: T)

  /** The outcome of an operation that can fail with an error message. */
  datatype Result<+R> = Success(value: R) | Failure(error: string)
}
